=== FILE: README.md ===
# Room reservation core, modelled in Dafny

This project models the logic of a room-reservation front end. Users browse
academic rooms, narrow the list with a filter bar, book a room through a form,
and cancel bookings from a list grouped by date. Everything else in the
application is rendering, routing and timers. The logic modelled here is:

- **the room query** of the in-memory back end (`getRooms`). It makes five
  guarded filter passes over the room inventory: block, minimum capacity,
  required resources, case-insensitive text search and the stored
  availability flag (`room_query.dfy`).
- **the reservation store** (`createReservation`, `deleteReservation`). These
  are pure transitions over the sequence of reservation records. Create looks
  the room up, then appends a record whose id is `String(length + 1)`. Delete
  removes the first record with the given id (`reservation_store.dfy`).
- **the filter bar**. It builds a `RoomFilters` record from the controls,
  toggles resources, clears the controls and counts the active filters for a
  badge (`filter_bar.dfy`).
- **the reservation list**. It removes a cancelled entry locally, groups
  entries by date and sorts the dates in ascending order
  (`reservation_list.dfy`).
- **the reservation form**. This covers the default state, the room id taken
  from the address, the check that no field is empty at submit time, the
  start and end hour pickers with their enabling rule, and the room picker
  that disables unavailable rooms (`reservation_form.dfy`).

The supporting modules are:

- `types.dfy`: the records `Room`, `Resource`, `Block`, `Reservation`,
  `ReservationFormData` and `RoomFilters`. Every field of `RoomFilters` is
  optional.
- `wrappers.dfy`: `Option` and `Result`.
- `seqs.dfy`: an order-preserving `Filter` (JavaScript's `Array.filter`) and
  `FirstIndex` (`findIndex`).
- `text.dfy`: ASCII case folding, substring search, JavaScript string order
  and decimal rendering of numbers.
- `calendar.dfy`: "HH:MM" times and "yyyy-MM-dd" dates. Its lemmas show that
  comparing these as strings agrees with time order.

JavaScript truthiness is written out explicitly:

- The block and query passes run only for a defined, non-empty string.
- The capacity pass runs only for a defined, non-zero number.
- The resources pass runs only for a defined, non-empty list.
- The availability pass runs whenever the field is defined, `false` included.

Some behaviour worth stating plainly:

- A room's `available` is a stored boolean. It is never computed from the
  reservations.
- `available: false` selects the occupied rooms. It is not inert.
- Creating a reservation checks neither for overlap with other reservations
  nor that the start comes before the end.
- No interval-overlap or "currently occupied" computation exists in the code,
  so none is modelled. The lemmas `CreateChecksNoConflict` and
  `SubmitIgnoresTimeOrder` state the absence of these checks.

Ids are derived from the store's length. As a result, from a store whose ids
are still sequential ("1", "2", … in order, as in the initial mock data),
deleting any record other than the last and then creating one gives the new
record the id of the current last record. `DeleteThenCreateDuplicatesId`
proves this for every such store. Once ids are no longer sequential the new id
can collide with a different record, or with none. After that, the store's delete removes
only the first of the two records. The list's local delete removes both
(`RemoveLocallyDiffersOnDuplicates`).

The filter bar's first four capacity choices (15, 30, 50, 100) are labelled
"up to N people", and the fifth (value 200) "more than 100 people". The query
keeps rooms with *at least* the chosen number of seats, so the last choice
keeps only rooms of 200 seats or more. The model follows the query.

## Model

| member | source | states |
|---|---|---|
| `RoomQuery.GetRooms` | room-reserve-control-main/src/services/api.ts:142-176 | The query itself, as five guarded passes in source order. It has no contract of its own: `GetRoomsIsOnePass` and `GetRoomsSelects` state what it returns. |
| `RoomQuery.GetRoomsIsOnePass` | room-reserve-control-main/src/services/api.ts:142-176 | The five successive guarded passes select exactly the rooms that one order-preserving pass with the conjunction of the five conditions selects. |
| `RoomQuery.GetRoomsSelects` | room-reserve-control-main/src/services/api.ts:144-174 | The result is a subsequence of the inventory. A room is in it iff it is in the inventory and meets every field that is set: exact case-sensitive block; capacity at least the requested one; every requested resource id among the room's resources (all-of); the lower-cased query inside the lower-cased name or block; the stored availability equal to the requested flag. |
| `RoomQuery.GetRoomsInert` | room-reserve-control-main/src/services/api.ts:146-172 | With every field absent or empty (capacity 0 included), the result is the whole inventory in its original order. |
| `RoomQuery.AvailableFalseSelectsOccupied` | room-reserve-control-main/src/services/api.ts:170-172 | `available: false` returns only rooms whose stored flag is false. |
| `RoomQuery.GetRoomsMonotone` | room-reserve-control-main/src/services/api.ts:144-174 | A query whose condition implies another's returns a subset of that query's rooms, so the passes only ever narrow. |
| `RoomQuery.CapacityScenario` | room-reserve-control-main/src/services/api.ts:150-152 | Capacity is an inclusive minimum: at 30 the 25-seat room is dropped and the 40-seat room kept; at 25 both are kept. |
| `RoomQuery.ResourcesScenario` | room-reserve-control-main/src/services/api.ts:154-160 | Requesting resources "1" and "4" keeps the room holding {1,3,4} and drops the one holding {1,3}. |
| `RoomQuery.QueryScenario` | room-reserve-control-main/src/services/api.ts:162-168 | The query "bloco a" finds a room of block "Bloco A". |
| `RoomQuery.QueryIgnoresCase` | room-reserve-control-main/src/services/api.ts:162-168 | For every inventory and query, lower-casing the search text first returns the same rooms, since both sides of `includes` are lower-cased. |
| `RoomQuery.NameHitIsFound` | room-reserve-control-main/src/services/api.ts:162-168 | A room whose lower-cased name contains the lower-cased, non-empty search text is found by a search for that text alone. |
| `ReservationStore.FindRoom` | room-reserve-control-main/src/services/api.ts:214 | Answers no room exactly when no room has the id; otherwise the room it answers has the id and no earlier room does. |
| `ReservationStore.CreateReservation` | room-reserve-control-main/src/services/api.ts:212-231 | Fails (room not found) iff no room has the form's room id. Otherwise it appends exactly one record at the end of the store and changes no earlier record. The new record's id is the decimal string of the old length + 1. Its room id, date, times and purpose come from the form, its room and block names from the first room with that id, as `find` returns it, and its requester is "Prof. Silva". |
| `ReservationStore.DeleteReservation` | room-reserve-control-main/src/services/api.ts:247-254 | An absent id leaves the store unchanged. Otherwise exactly the first record with the id is removed and the rest keep their order. |
| `ReservationStore.CreateChecksNoConflict` | room-reserve-control-main/src/services/api.ts:212-230 | Creation succeeds for the exact slot of an existing reservation, leaving two records with the same room, date and hours. It also succeeds for an end time before the start time. |
| `ReservationStore.DeleteAt` | room-reserve-control-main/src/services/api.ts:249-251 | When the first record with an id is at position i, deleting that id removes position i and nothing else. |
| `ReservationStore.DeleteUndoesCreate` | room-reserve-control-main/src/services/api.ts:218-229 | If the new id was not already taken, deleting the record just created restores the previous store. |
| `ReservationStore.SequentialIdsAreUnique` | room-reserve-control-main/src/services/api.ts:218 | A store with ids "1", "2", … in order has pairwise distinct ids. |
| `ReservationStore.CreateKeepsSequentialIds` | room-reserve-control-main/src/services/api.ts:218-229 | While nothing is deleted, creation keeps the ids sequential and therefore distinct. |
| `ReservationStore.DeleteThenCreateDuplicatesId` | room-reserve-control-main/src/services/api.ts:218 | From a store with sequential ids, deleting any record except the last and then creating one yields two records with the id `String(n)`, where n is the original length. |
| `Text.DecimalString` | room-reserve-control-main/src/services/api.ts:218 | `String(n)` of a natural number is a non-empty string of decimal digits without a leading zero. |
| `Text.DecimalRoundTrip` | room-reserve-control-main/src/services/api.ts:218 | Reading the decimal string back gives the number. |
| `Text.DecimalInjective` | room-reserve-control-main/src/services/api.ts:218 | Two numbers have the same decimal string iff they are equal. |
| `Text.Lower` | room-reserve-control-main/src/services/api.ts:163-166 | Lower-casing keeps the length, leaves no upper-case ASCII letter, keeps every other character and shifts each upper-case ASCII letter to its lower-case one. |
| `Text.Contains` | room-reserve-control-main/src/services/api.ts:165-166 | `includes`: the needle occurs at some offset of the string. It has no contract of its own. `ContainsFacts` proves that a needle placed inside a string is found and that the empty needle is always found, and `NameHitIsFound` lifts this to the room query. |
| `Text.LexLess` | room-reserve-control-main/src/components/reservations/ReservationForm.tsx:208 | String `<` (and `<=` with equality), without a contract. `LexLessStrictTotal` and `LexLessTransitive` prove it is a strict total order, and `Calendar.TimeOrder` that it is minute order on "HH:MM". |
| `Text.LexLessStrictTotal` | room-reserve-control-main/src/components/reservations/ReservationForm.tsx:208 | String order is irreflexive, asymmetric and connected. |
| `Text.DigitsOrder` | room-reserve-control-main/src/components/reservations/ReservationForm.tsx:208 | On digit strings of equal width, string order is numeric order, and string equality is numeric equality. |
| `Calendar.TimeOrder` | room-reserve-control-main/src/components/reservations/ReservationForm.tsx:208 | For zero-padded "HH:MM" times, string order agrees with minutes since midnight, and string equality with equal minutes. |
| `Calendar.DateOrder` | room-reserve-control-main/src/components/reservations/ReservationList.tsx:83-85 | For "yyyy-MM-dd" dates, string order is chronological (year, then month, then day) order, and equal strings are equal dates. |
| `FilterBar.BuildFilters` | room-reserve-control-main/src/components/dashboard/FilterBar.tsx:46-53 | The query has `block` iff a non-empty block is chosen, `capacity` iff a non-zero capacity is chosen, `resources` iff the selection is non-empty, `query` iff the search text is non-empty, each holding the control's value. `available` is present iff "available only" is ticked, and it is never `false`. |
| `FilterBar.DashboardQuery` | room-reserve-control-main/src/components/dashboard/FilterBar.tsx:46-55 | The rooms listed for a control state are exactly those meeting every chosen control. With "available only" ticked, only rooms flagged available remain. Unticked, the flag is not looked at. |
| `FilterBar.ToggleResource` | room-reserve-control-main/src/components/dashboard/FilterBar.tsx:58-64 | Flips membership of the id and leaves all other ids' membership alone. Every other id keeps exactly as many copies as before. A present id is removed with all its occurrences, leaving a shorter subsequence. An absent id is appended at the end. |
| `FilterBar.ToggleTwice` | room-reserve-control-main/src/components/dashboard/FilterBar.tsx:58-64 | Toggling an absent id twice restores the selection exactly. Toggling a present id twice moves it, de-duplicated, to the end. |
| `FilterBar.ActiveFilterCount` | room-reserve-control-main/src/components/dashboard/FilterBar.tsx:122-125 | The badge count lies in 0..4 and is positive iff `hasActiveFilters` holds. |
| `FilterBar.EachControlCounts` | room-reserve-control-main/src/components/dashboard/FilterBar.tsx:122-125 | Each of the four counted controls adds exactly one to the badge, whatever the others are: a non-empty block, a non-zero capacity, a non-empty resource selection, "available only". With the count of 0 after clearing, this fixes the badge as the number of chosen controls. |
| `FilterBar.SearchNotCounted` | room-reserve-control-main/src/components/dashboard/FilterBar.tsx:82 | Changing the search text changes neither the badge count nor `hasActiveFilters`. |
| `FilterBar.EmptyQueryIffInactive` | room-reserve-control-main/src/components/dashboard/FilterBar.tsx:46-53 | The built query is `{}` iff no filter is active and the search box is empty. The empty query lists the whole inventory. |
| `FilterBar.ClearShowsEverything` | room-reserve-control-main/src/components/dashboard/FilterBar.tsx:66-72 | After clearing, the built query is `{}`, the badge count is 0 and the whole inventory is listed. |
| `FilterBar.ClearFilters` | room-reserve-control-main/src/components/dashboard/FilterBar.tsx:66-72 | After clearing, no filter is active and the search box is empty. `ClearShowsEverything` adds that the built query is `{}` and lists the whole inventory. |
| `FilterBar.HasActiveFilters` | room-reserve-control-main/src/components/dashboard/FilterBar.tsx:82 | A predicate without a contract. `ActiveFilterCount` proves it holds iff the badge count is positive, and `SearchNotCounted` that the search text does not affect it. |
| `ReservationList.RemoveLocally` | room-reserve-control-main/src/components/reservations/ReservationList.tsx:37 | Every entry with the id is removed. Every other entry stays, with as many copies as the list holds, in its original order. |
| `ReservationList.RemoveLocallyMatchesStore` | room-reserve-control-main/src/components/reservations/ReservationList.tsx:36-37 | While ids are unique, the local removal gives the same list as the store's delete. |
| `ReservationList.RemoveLocallyAfterStoreDelete` | room-reserve-control-main/src/components/reservations/ReservationList.tsx:36-37 | For every list and id, filtering out the id after the store's delete gives the same list as filtering the original. The shared array's prior splice does not change what the list shows. |
| `ReservationList.RemoveLocallyDiffersOnDuplicates` | room-reserve-control-main/src/components/reservations/ReservationList.tsx:37 | With two records sharing an id, the store removes one and the local list removes both. |
| `ReservationList.GroupByDate` | room-reserve-control-main/src/components/reservations/ReservationList.tsx:74-80 | The keys are exactly the distinct dates of the list. Each key's group is exactly that date's reservations, in list order. |
| `ReservationList.GroupsPartition` | room-reserve-control-main/src/components/reservations/ReservationList.tsx:74-80 | Every reservation is in the group of its own date, and every group member is a reservation of the list with the group's date. |
| `ReservationList.GroupsKeepListOrder` | room-reserve-control-main/src/components/reservations/ReservationList.tsx:75-79 | Each group is a subsequence of the list: pushing in `forEach` order keeps list order. |
| `ReservationList.GroupsCoverList` | room-reserve-control-main/src/components/reservations/ReservationList.tsx:74-85 | The group sizes, summed over the sorted dates, equal the length of the list. |
| `ReservationList.SortedDates` | room-reserve-control-main/src/components/reservations/ReservationList.tsx:83-85 | The sorted dates are strictly ascending and distinct. They are exactly the dates occurring in the list. |
| `ReservationList.SortedDatesAreGroupKeys` | room-reserve-control-main/src/components/reservations/ReservationList.tsx:83 | The sorted dates are exactly the keys of the grouping. |
| `ReservationList.SortedDatesChronological` | room-reserve-control-main/src/components/reservations/ReservationList.tsx:83-85 | For well-formed "yyyy-MM-dd" dates, the sorted dates run in strictly increasing chronological order. |
| `ReservationForm.DefaultForm` | room-reserve-control-main/src/components/reservations/ReservationForm.tsx:18-24 | The initial form has an empty room and purpose and today's date. It starts at 08:00 and ends at 10:00, well-formed times with the start before the end as strings and as minutes. |
| `ReservationForm.WithRoomIdParam` | room-reserve-control-main/src/components/reservations/ReservationForm.tsx:27-32 | A non-empty `roomId` parameter replaces only the room id. Date, times and purpose are unchanged, and without the parameter nothing changes. |
| `ReservationForm.HasEmptyField` | room-reserve-control-main/src/components/reservations/ReservationForm.tsx:61 | A predicate without a contract: some field is the empty string. `Submit` is refused as incomplete iff it holds. |
| `ReservationForm.Submit` | room-reserve-control-main/src/components/reservations/ReservationForm.tsx:57-77 | The submission is refused as incomplete iff a field is empty. It succeeds iff no field is empty and a room has the id. On success it is exactly the store's creation for the whole form: one record with id `String(length + 1)` and the form's room id, date, times and purpose is appended. |
| `ReservationForm.SubmitIgnoresTimeOrder` | room-reserve-control-main/src/components/reservations/ReservationForm.tsx:61-68 | A complete form for a known room is accepted even when its end is not after its start. |
| `ReservationForm.TimeOptionsAreHourly` | room-reserve-control-main/src/components/reservations/ReservationForm.tsx:79-82 | The option list is the 14 hours 08:00 … 21:00. |
| `ReservationForm.StartOptions` | room-reserve-control-main/src/components/reservations/ReservationForm.tsx:177 | `slice(0, -1)` of the hour list, without a contract. `PickerHours` proves it is the 13 hours 08:00 … 20:00. |
| `ReservationForm.EndOptions` | room-reserve-control-main/src/components/reservations/ReservationForm.tsx:207 | `slice(1)` of the hour list, without a contract. `PickerHours` proves it is the 13 hours 09:00 … 21:00. |
| `ReservationForm.PickerHours` | room-reserve-control-main/src/components/reservations/ReservationForm.tsx:177-207 | The start picker offers 08:00 … 20:00 (the list without its last element). The end picker offers 09:00 … 21:00 (without its first). All are well-formed, one hour apart. |
| `ReservationForm.EndOptionEnabled` | room-reserve-control-main/src/components/reservations/ReservationForm.tsx:208 | The `disabled={time <= startTime}` test, negated, without a contract. `EndOptionRule` and `EnabledEndOptions` prove what it means. |
| `ReservationForm.EndOptionRule` | room-reserve-control-main/src/components/reservations/ReservationForm.tsx:208 | An end option is enabled, meaning not `<=` the start as a string, iff it is strictly later than the start. |
| `ReservationForm.EnabledEndOptions` | room-reserve-control-main/src/components/reservations/ReservationForm.tsx:207-208 | With the i-th start option chosen, exactly the end options from position i on are enabled. The last one always is. |
| `ReservationForm.RoomChoices` | room-reserve-control-main/src/components/reservations/ReservationForm.tsx:112-116 | Every room is listed, in order, and an entry is enabled iff the room's stored flag says available. |
| `ReservationForm.SelectableRoomsAreAvailable` | room-reserve-control-main/src/components/reservations/ReservationForm.tsx:113 | The selectable rooms are exactly those that the query `{available: true}` returns. |
| `Seqs.FilterIsSubsequence` | room-reserve-control-main/src/services/api.ts:147 | `Array.filter` keeps its elements in their original order. |
| `Seqs.FilterCounts` | room-reserve-control-main/src/components/reservations/ReservationList.tsx:37 | `Array.filter` keeps every copy of a kept element and drops every copy of a dropped one. |
| `Seqs.FilterFilter` | room-reserve-control-main/src/services/api.ts:144-172 | Two successive filter passes equal one pass with the conjunction. |
| `Seqs.FirstIndex` | room-reserve-control-main/src/services/api.ts:249 | `findIndex`: it answers an index whose element satisfies the test, with no earlier element satisfying it, and answers none iff no element satisfies it. |

## Left out

- Promises, `setTimeout` delays, the commented-out `fetch` calls and the `try`/`catch` around them: these are asynchronous network plumbing. Operations are modelled as pure functions of their inputs.
- The `throw` when a room is unknown happens inside a timer callback, so the promise never settles. It is modelled as a `RoomNotFound` failure that leaves the store unchanged.
- The in-memory arrays are parameters (`rooms`, `store`) rather than module state. The mock data themselves (blocks, resources, rooms, reservations) are not reproduced.
- `getBlocks`, `getResources` and the three statistics getters return fixed arrays unchanged, with no logic to model. The statistics arrays and the charts are static data.
- `getReservations` returns the store's array itself, not a copy. The reservation list keeps that array as its state until its first local update, so the store's `splice` also changes the list's state before `prev.filter` runs. The model keeps the store and the list as separate values. This yields the same lists: filtering out an id after the store removed its first record gives the same result as filtering the original (`ReservationList.RemoveLocallyAfterStoreDelete`).
- React state, effects, rendering, toasts, navigation, the loading and "deleting" flags, and `handleChange` are left out. Their logic is pass-through.
- The pages and the other components (room list, room card, dashboard, reservations, statistics, navigation bar, index redirect timer) are UI only and are not part of this model.
- `format(new Date(), 'yyyy-MM-dd')` and the date input's `min`: the clock is a parameter (`today`) and no minimum date is enforced by the modelled logic.
- Lower: folds ASCII letters only, because full Unicode `toLowerCase` is a large table outside this core. Non-ASCII letters are left as they are.
- SortedDates: orders dates by string order instead of by `new Date(a).getTime()`. The two agree for valid calendar dates written "yyyy-MM-dd" (`Calendar.DateOrder`, which holds for every digit string of that shape, so for every valid date). Malformed dates, for which JavaScript's comparator yields NaN, are not modelled.
- LexLess: compares Unicode scalar values, whereas JavaScript compares UTF-16 code units. The two differ only for characters outside the Basic Multilingual Plane.
- RoomQuery.GetRooms: capacities are integers. JavaScript numbers can also be fractional or NaN (NaN is falsy and would switch the capacity pass off).
- FilterBar.BuildFilters: the selected capacity is an integer, as `parseInt` of the fixed options yields. A NaN from a malformed value is not modelled.

=== FILE: calendar.dfy ===
/** Wall-clock times "HH:MM" and ISO dates "yyyy-MM-dd" as the forms handle
    them: plain strings, compared as strings. The lemmas here show that for
    well-formed values this string order is the order of time. */
module Calendar {
  import opened Text

  /** A zero-padded time of day "HH:MM" whose minutes are below 60. */
  predicate WellFormedTime(s: string) {
    && |s| == 5
    && IsDigit(s[0]) && IsDigit(s[1]) && s[2] == ':' && IsDigit(s[3]) && IsDigit(s[4])
    && DigitsValue(s[3..5]) < 60
  }

  /** Minutes since midnight of a well-formed time. */
  function MinuteOfDay(s: string): nat
    requires WellFormedTime(s)
  {
    DigitsValue(s[..2]) * 60 + DigitsValue(s[3..])
  }

  /** A separator shared by both strings does not affect their order. */
  lemma SeparatorOrder(c: char, x: string, y: string)
    ensures LexLess([c] + x, [c] + y) == LexLess(x, y)
  {
    assert ([c] + x)[1..] == x && ([c] + y)[1..] == y;
  }

  /** Strings that start with a numeric field of equal width compare by
      that field's value, and on a tie by the rest. */
  lemma FieldThenRest(a: string, x: string, b: string, y: string)
    requires AllDigits(a) && AllDigits(b) && |a| == |b|
    ensures LexLess(a + x, b + y) <==>
      DigitsValue(a) < DigitsValue(b) || (DigitsValue(a) == DigitsValue(b) && LexLess(x, y))
  {
    LexLessAppend(a, x, b, y);
    DigitsOrder(a, b);
  }

  /** Comparing two well-formed times as strings, as the form does, agrees
      with comparing the moments they denote. */
  lemma TimeOrder(a: string, b: string)
    requires WellFormedTime(a) && WellFormedTime(b)
    ensures LexLess(a, b) <==> MinuteOfDay(a) < MinuteOfDay(b)
    ensures a == b <==> MinuteOfDay(a) == MinuteOfDay(b)
  {
    var ah, am, bh, bm := a[..2], a[3..], b[..2], b[3..];
    assert am == a[3..5] && bm == b[3..5];
    assert a == ah + ([':'] + am) && b == bh + ([':'] + bm);
    FieldThenRest(ah, [':'] + am, bh, [':'] + bm);
    SeparatorOrder(':', am, bm);
    DigitsOrder(am, bm);
    DigitsOrder(ah, bh);
    var vah, vbh := DigitsValue(ah), DigitsValue(bh);
    if vah < vbh {
      assert vah * 60 + 60 <= vbh * 60;
    } else if vbh < vah {
      assert vbh * 60 + 60 <= vah * 60;
    }
  }

  /** An ISO calendar date "yyyy-MM-dd". */
  predicate WellFormedDate(s: string) {
    && |s| == 10
    && IsDigit(s[0]) && IsDigit(s[1]) && IsDigit(s[2]) && IsDigit(s[3])
    && s[4] == '-' && IsDigit(s[5]) && IsDigit(s[6])
    && s[7] == '-' && IsDigit(s[8]) && IsDigit(s[9])
  }

  function Year(s: string): nat requires WellFormedDate(s) { DigitsValue(s[..4]) }
  function Month(s: string): nat requires WellFormedDate(s) { DigitsValue(s[5..7]) }
  function Day(s: string): nat requires WellFormedDate(s) { DigitsValue(s[8..]) }

  /** Chronological order of two dates: by year, then month, then day. */
  predicate DateBefore(a: string, b: string)
    requires WellFormedDate(a) && WellFormedDate(b)
  {
    || Year(a) < Year(b)
    || (Year(a) == Year(b) && Month(a) < Month(b))
    || (Year(a) == Year(b) && Month(a) == Month(b) && Day(a) < Day(b))
  }

  /** Comparing two ISO dates as strings agrees with chronological order,
      and equal strings are exactly equal dates. */
  lemma DateOrder(a: string, b: string)
    requires WellFormedDate(a) && WellFormedDate(b)
    ensures LexLess(a, b) <==> DateBefore(a, b)
    ensures a == b <==> (Year(a) == Year(b) && Month(a) == Month(b) && Day(a) == Day(b))
  {
    var ra, rb := a[4..], b[4..];
    assert a == a[..4] + ra && b == b[..4] + rb;
    FieldThenRest(a[..4], ra, b[..4], rb);
    MonthDayOrder(a, b);
    DigitsOrder(a[..4], b[..4]);
    if a[..4] == b[..4] && ra == rb {
      assert a == b;
    }
  }

  /** The "-MM-dd" tails of two dates compare by month, then day. */
  lemma MonthDayOrder(a: string, b: string)
    requires WellFormedDate(a) && WellFormedDate(b)
    ensures LexLess(a[4..], b[4..]) <==>
      Month(a) < Month(b) || (Month(a) == Month(b) && Day(a) < Day(b))
    ensures a[4..] == b[4..] <==> Month(a) == Month(b) && Day(a) == Day(b)
  {
    var ma, mb := a[5..7], b[5..7];
    var da, db := a[8..], b[8..];
    assert a[4..] == ['-'] + (ma + (['-'] + da));
    assert b[4..] == ['-'] + (mb + (['-'] + db));
    SeparatorOrder('-', ma + (['-'] + da), mb + (['-'] + db));
    FieldThenRest(ma, ['-'] + da, mb, ['-'] + db);
    SeparatorOrder('-', da, db);
    DigitsOrder(ma, mb);
    DigitsOrder(da, db);
  }
}

=== FILE: filter_bar.dfy ===
/** The dashboard's filter bar: the state of its controls, the query built
    from that state, resource toggling, clearing, and the badge that counts
    active filters. */
module FilterBar {
  import opened Wrappers
  import opened Types
  import opened Seqs
  import opened RoomQuery

  /** The values of the filter controls. */
  datatype FilterState = FilterState(
    selectedBlock: Option<string>,
    selectedCapacity: Option<int>,
    selectedResources: seq<string>,
    searchQuery: string,
    availableOnly: bool)

  /** The controls as first shown, and as `clearFilters` leaves them. */
  const InitialState := FilterState(None, None, [], "", false)

  // JavaScript truthiness of the two optional controls.

  predicate BlockChosen(st: FilterState) {
    st.selectedBlock.Some? && |st.selectedBlock.value| > 0
  }

  predicate CapacityChosen(st: FilterState) {
    st.selectedCapacity.Some? && st.selectedCapacity.value != 0
  }

  /** The query sent to the room list: a field is present only when its
      control holds a truthy value, and availability is only ever `true`. */
  function BuildFilters(st: FilterState): (f: RoomFilters)
    ensures f.block.Some? <==> BlockChosen(st)
    ensures f.block.Some? ==> f.block == st.selectedBlock
    ensures f.capacity.Some? <==> CapacityChosen(st)
    ensures f.capacity.Some? ==> f.capacity == st.selectedCapacity
    ensures f.resources.Some? <==> |st.selectedResources| > 0
    ensures f.resources.Some? ==> f.resources.value == st.selectedResources
    ensures f.query.Some? <==> |st.searchQuery| > 0
    ensures f.query.Some? ==> f.query.value == st.searchQuery
    ensures f.available != Some(false)
    ensures f.available.Some? <==> st.availableOnly
  {
    RoomFilters(
      if BlockChosen(st) then st.selectedBlock else None,
      if CapacityChosen(st) then st.selectedCapacity else None,
      if |st.selectedResources| > 0 then Some(st.selectedResources) else None,
      if |st.searchQuery| > 0 then Some(st.searchQuery) else None,
      if st.availableOnly then Some(true) else None)
  }

  /** The rooms the dashboard lists for a state of the controls: those
      meeting every chosen control, in inventory order. With "available
      only" ticked only rooms flagged available remain; unticked, the flag is
      not looked at, so occupied rooms can never be asked for alone. */
  lemma DashboardQuery(rooms: seq<Room>, st: FilterState)
    ensures forall room :: room in GetRooms(rooms, BuildFilters(st)) <==>
      && room in rooms
      && (BlockChosen(st) ==> room.block == st.selectedBlock.value)
      && (CapacityChosen(st) ==> room.capacity >= st.selectedCapacity.value)
      && (forall rid | rid in st.selectedResources :: OffersResource(room, rid))
      && (|st.searchQuery| > 0 ==> MentionsText(room, st.searchQuery))
      && (st.availableOnly ==> room.available)
  {
    GetRoomsSelects(rooms, BuildFilters(st));
  }

  /** The selection without any occurrence of `id`, order kept. */
  function Without(selected: seq<string>, id: string): seq<string> {
    Filter(selected, (x: string) => x != id)
  }

  /** `toggleResource(id)`: a selected id is removed (every occurrence), an
      unselected one is appended; every other id keeps all its copies. */
  function ToggleResource(selected: seq<string>, id: string): (r: seq<string>)
    ensures id in r <==> id !in selected
    ensures forall x :: x != id ==> (x in r <==> x in selected)
    ensures forall x | x != id :: multiset(r)[x] == multiset(selected)[x]
    ensures id in selected ==> IsSubsequence(r, selected) && |r| < |selected|
    ensures id !in selected ==> r == selected + [id]
  {
    if id in selected then
      FilterIsSubsequence(selected, (x: string) => x != id);
      FilterShrinks(selected, (x: string) => x != id, id);
      FilterCounts(selected, (x: string) => x != id);
      Without(selected, id)
    else selected + [id]
  }

  /** Toggling an unselected id twice restores the selection exactly;
      toggling a selected one twice moves it to the end, with duplicates
      collapsed. */
  lemma ToggleTwice(selected: seq<string>, id: string)
    ensures id !in selected ==> ToggleResource(ToggleResource(selected, id), id) == selected
    ensures id in selected ==>
      ToggleResource(ToggleResource(selected, id), id) == Without(selected, id) + [id]
  {
    if id !in selected {
      FilterAppend(selected, [id], (x: string) => x != id);
      FilterAll(selected, (x: string) => x != id);
      assert Filter([id], (x: string) => x != id) == [];
      assert selected + [] == selected;
    }
  }

  /** `clearFilters()`: every control back to its initial value. */
  function ClearFilters(st: FilterState): (r: FilterState)
    ensures !HasActiveFilters(r) && |r.searchQuery| == 0
  {
    InitialState
  }

  /** `hasActiveFilters`: block, capacity, resources or "available only";
      the search text does not count. */
  predicate HasActiveFilters(st: FilterState) {
    BlockChosen(st) || CapacityChosen(st) || |st.selectedResources| > 0 || st.availableOnly
  }

  /** The number on the badge next to the filter button. */
  function ActiveFilterCount(st: FilterState): (n: nat)
    ensures n <= 4
    ensures n > 0 <==> HasActiveFilters(st)
  {
    (if BlockChosen(st) then 1 else 0)
    + (if CapacityChosen(st) then 1 else 0)
    + (if |st.selectedResources| > 0 then 1 else 0)
    + (if st.availableOnly then 1 else 0)
  }

  /** Each of the four counted controls adds exactly one to the badge,
      whatever the others are: a chosen block, a chosen capacity, a
      non-empty resource selection and "available only". */
  lemma EachControlCounts(st: FilterState, b: string, c: int, rs: seq<string>)
    ensures ActiveFilterCount(st.(availableOnly := true))
      == ActiveFilterCount(st.(availableOnly := false)) + 1
    ensures |b| > 0 ==>
      ActiveFilterCount(st.(selectedBlock := Some(b))) == ActiveFilterCount(st.(selectedBlock := None)) + 1
    ensures c != 0 ==>
      ActiveFilterCount(st.(selectedCapacity := Some(c))) == ActiveFilterCount(st.(selectedCapacity := None)) + 1
    ensures |rs| > 0 ==>
      ActiveFilterCount(st.(selectedResources := rs)) == ActiveFilterCount(st.(selectedResources := [])) + 1
  {
  }

  /** The search text changes neither the badge nor whether filters count
      as active. */
  lemma SearchNotCounted(st: FilterState, query: string)
    ensures ActiveFilterCount(st.(searchQuery := query)) == ActiveFilterCount(st)
    ensures HasActiveFilters(st.(searchQuery := query)) == HasActiveFilters(st)
  {
  }

  /** The query built is empty exactly when no filter is active and the
      search box is empty; it then lists the whole inventory. */
  lemma EmptyQueryIffInactive(rooms: seq<Room>, st: FilterState)
    ensures BuildFilters(st) == NoFilters <==> ActiveFilterCount(st) == 0 && st.searchQuery == ""
    ensures BuildFilters(st) == NoFilters ==> GetRooms(rooms, BuildFilters(st)) == rooms
  {
    if BuildFilters(st) == NoFilters {
      GetRoomsInert(rooms, NoFilters);
    }
  }

  /** After clearing, no filter is active and the full inventory is listed. */
  lemma ClearShowsEverything(rooms: seq<Room>, st: FilterState)
    ensures BuildFilters(ClearFilters(st)) == NoFilters
    ensures ActiveFilterCount(ClearFilters(st)) == 0
    ensures GetRooms(rooms, BuildFilters(ClearFilters(st))) == rooms
  {
    GetRoomsInert(rooms, NoFilters);
  }
}

=== FILE: reservation_form.dfy ===
/** The new-reservation form: its initial state, the room id taken from the
    address, the submit-time check, the hour pickers and the room picker. */
module ReservationForm {
  import opened Wrappers
  import opened Types
  import opened Text
  import opened Calendar
  import opened RoomQuery
  import opened ReservationStore

  /** The form as first shown; `today` is the current date formatted
      "yyyy-MM-dd", which the clock supplies. */
  function DefaultForm(today: string): (f: ReservationFormData)
    ensures f.roomId == "" && f.purpose == "" && f.date == today
    ensures WellFormedTime(f.startTime) && WellFormedTime(f.endTime)
    ensures MinuteOfDay(f.startTime) == 8 * 60 && MinuteOfDay(f.endTime) == 10 * 60
    ensures LexLess(f.startTime, f.endTime)
  {
    HourLabelMeaning(8);
    HourLabelMeaning(10);
    TimeOrder(HourLabel(8), HourLabel(10));
    assert HourLabel(8) == "08:00" && HourLabel(10) == "10:00";
    ReservationFormData("", today, "08:00", "10:00", "")
  }

  /** A `roomId` query parameter, when present and non-empty, replaces the
      form's room and nothing else. */
  function WithRoomIdParam(form: ReservationFormData, param: Option<string>): (r: ReservationFormData)
    ensures r.date == form.date && r.startTime == form.startTime
    ensures r.endTime == form.endTime && r.purpose == form.purpose
    ensures r.roomId == (if param.Some? && |param.value| > 0 then param.value else form.roomId)
  {
    if param.Some? && |param.value| > 0 then form.(roomId := param.value) else form
  }

  /** Some field of the form is empty. */
  predicate HasEmptyField(form: ReservationFormData) {
    form.roomId == "" || form.date == "" || form.startTime == "" || form.endTime == "" || form.purpose == ""
  }

  datatype SubmitError = MissingFields | CreateFailed(cause: StoreError)

  /** `handleSubmit`: a form with an empty field is refused before anything
      is sent; otherwise the reservation is created as submitted. */
  function Submit(rooms: seq<Room>, store: seq<Reservation>, form: ReservationFormData)
    : (r: Result<Created, SubmitError>)
    ensures r == Failure(MissingFields) <==> HasEmptyField(form)
    ensures r.Success? <==> !HasEmptyField(form) && exists room | room in rooms :: room.id == form.roomId
    ensures r.Success? ==>
      && r.value.store == store + [r.value.record]
      && r.value.record.id == DecimalString(|store| + 1)
      && r.value.record.roomId == form.roomId
      && r.value.record.date == form.date
      && r.value.record.startTime == form.startTime
      && r.value.record.endTime == form.endTime
      && r.value.record.purpose == form.purpose
    ensures r.Success? ==> CreateReservation(rooms, store, form) == Success(r.value)
  {
    if HasEmptyField(form) then Failure(MissingFields)
    else match CreateReservation(rooms, store, form)
      case Failure(e) => Failure(CreateFailed(e))
      case Success(c) => Success(c)
  }

  /** The submit check compares no times: a complete form for a known room
      goes through even when it ends before it starts. */
  lemma SubmitIgnoresTimeOrder(rooms: seq<Room>, store: seq<Reservation>, form: ReservationFormData)
    requires !HasEmptyField(form)
    requires exists room | room in rooms :: room.id == form.roomId
    requires WellFormedTime(form.startTime) && WellFormedTime(form.endTime)
    requires MinuteOfDay(form.endTime) <= MinuteOfDay(form.startTime)
    ensures Submit(rooms, store, form).Success?
    ensures !LexLess(form.startTime, Submit(rooms, store, form).value.record.endTime)
  {
    TimeOrder(form.startTime, form.endTime);
  }

  /** "HH:00" for an hour below 24. */
  function HourLabel(h: nat): string
    requires h < 24
  {
    [DigitChar(h / 10), DigitChar(h % 10), ':', '0', '0']
  }

  lemma HourLabelMeaning(h: nat)
    requires h < 24
    ensures WellFormedTime(HourLabel(h)) && MinuteOfDay(HourLabel(h)) == h * 60
  {
    var s := HourLabel(h);
    var hh, mm := s[..2], s[3..];
    assert hh[..1] == [s[0]] && mm[..1] == [s[3]] && mm == s[3..5];
    assert DigitsValue([s[0]]) == DigitValue(s[0]) by {
      assert [s[0]][..0] == [];
    }
    assert DigitsValue([s[3]]) == 0 by {
      assert [s[3]][..0] == [];
    }
    assert DigitsValue(hh) == (h / 10) * 10 + h % 10;
    assert DigitsValue(mm) == 0;
  }

  /** The hours offered by the two pickers. */
  const TimeOptions: seq<string> := [
    "08:00", "09:00", "10:00", "11:00", "12:00", "13:00",
    "14:00", "15:00", "16:00", "17:00", "18:00", "19:00", "20:00", "21:00"
  ]

  lemma TimeOptionsAreHourly()
    ensures |TimeOptions| == 14
    ensures forall i :: 0 <= i < 14 ==> TimeOptions[i] == HourLabel(8 + i)
  {
  }

  /** `timeOptions.slice(0, -1)`: every hour but the last. */
  function StartOptions(): seq<string> {
    TimeOptions[..|TimeOptions| - 1]
  }

  /** `timeOptions.slice(1)`: every hour but the first. */
  function EndOptions(): seq<string> {
    TimeOptions[1..]
  }

  /** Start times run hourly from 08:00 to 20:00, end times from 09:00 to
      21:00. */
  lemma PickerHours()
    ensures |StartOptions()| == 13 && |EndOptions()| == 13
    ensures forall i :: 0 <= i < 13 ==>
      WellFormedTime(StartOptions()[i]) && MinuteOfDay(StartOptions()[i]) == (8 + i) * 60
    ensures forall i :: 0 <= i < 13 ==>
      WellFormedTime(EndOptions()[i]) && MinuteOfDay(EndOptions()[i]) == (9 + i) * 60
  {
    TimeOptionsAreHourly();
    forall h: nat | 8 <= h < 22 {
      HourLabelMeaning(h);
    }
  }

  /** An end option is offered unless `option <= startTime` as strings. */
  predicate EndOptionEnabled(option: string, startTime: string) {
    !(option == startTime || LexLess(option, startTime))
  }

  /** For well-formed times the string test means "ends strictly after the
      start". */
  lemma EndOptionRule(option: string, startTime: string)
    requires WellFormedTime(option) && WellFormedTime(startTime)
    ensures EndOptionEnabled(option, startTime) <==> MinuteOfDay(startTime) < MinuteOfDay(option)
  {
    TimeOrder(option, startTime);
  }

  /** With the start picked from the start list at position i, the enabled
      end options are exactly those from position i on: one at least is
      always left. */
  lemma EnabledEndOptions(i: nat)
    requires i < |StartOptions()|
    ensures forall j :: 0 <= j < |EndOptions()| ==>
      (EndOptionEnabled(EndOptions()[j], StartOptions()[i]) <==> i <= j)
    ensures EndOptionEnabled(EndOptions()[|EndOptions()| - 1], StartOptions()[i])
  {
    PickerHours();
    forall j | 0 <= j < |EndOptions()|
      ensures EndOptionEnabled(EndOptions()[j], StartOptions()[i]) <==> i <= j
    {
      EndOptionRule(EndOptions()[j], StartOptions()[i]);
    }
  }

  /** One entry of the room picker. */
  datatype RoomChoice = RoomChoice(roomId: string, enabled: bool)

  /** The room picker lists every room, in order, and disables those whose
      stored flag says unavailable. */
  function RoomChoices(rooms: seq<Room>): (r: seq<RoomChoice>)
    ensures |r| == |rooms|
    ensures forall i :: 0 <= i < |r| ==> r[i].roomId == rooms[i].id
    ensures forall i :: 0 <= i < |r| ==> (r[i].enabled <==> rooms[i].available)
  {
    seq(|rooms|, i requires 0 <= i < |rooms| => RoomChoice(rooms[i].id, rooms[i].available))
  }

  /** The selectable rooms are exactly those the query `{available: true}`
      returns. */
  lemma SelectableRoomsAreAvailable(rooms: seq<Room>)
    ensures forall i :: 0 <= i < |rooms| ==>
      (RoomChoices(rooms)[i].enabled <==> rooms[i] in GetRooms(rooms, RoomFilters(None, None, None, None, Some(true))))
  {
    GetRoomsSelects(rooms, RoomFilters(None, None, None, None, Some(true)));
  }
}

=== FILE: reservation_list.dfy ===
/** The "my reservations" list: removing a cancelled reservation from the
    local copy, grouping the reservations by date, and ordering the dates. */
module ReservationList {
  import opened Types
  import opened Seqs
  import opened Text
  import opened Calendar
  import opened ReservationStore

  /** `handleDelete`'s local update, `prev.filter(r => r.id !== id)`: every
      entry with that id goes, the others stay, every copy of them, in
      order. */
  function RemoveLocally(list: seq<Reservation>, id: string): (r: seq<Reservation>)
    ensures forall x :: x in r <==> x in list && x.id != id
    ensures forall x: Reservation | x.id != id :: multiset(r)[x] == multiset(list)[x]
    ensures IsSubsequence(r, list)
  {
    FilterIsSubsequence(list, (x: Reservation) => x.id != id);
    FilterCounts(list, (x: Reservation) => x.id != id);
    Filter(list, (x: Reservation) => x.id != id)
  }

  /** While ids are unique the local update agrees with the store's delete. */
  lemma RemoveLocallyMatchesStore(list: seq<Reservation>, id: string)
    requires UniqueIds(list)
    ensures RemoveLocally(list, id) == DeleteReservation(list, id)
  {
    var p := (x: Reservation) => x.id != id;
    if i :| 0 <= i < |list| && list[i].id == id {
      forall j | 0 <= j < |list| && j != i
        ensures p(list[j])
      {
        if j < i {
          assert list[j].id != list[i].id;
        } else {
          assert list[i].id != list[j].id;
        }
      }
      FilterDropsOne(list, p, i);
      DeleteAt(list, id, i);
    } else {
      FilterAll(list, p);
    }
  }

  /** The list's state shares the store's array, so the store's delete has
      already run when the local update filters; filtering what is left
      gives the same list as filtering the original. */
  lemma RemoveLocallyAfterStoreDelete(list: seq<Reservation>, id: string)
    ensures RemoveLocally(DeleteReservation(list, id), id) == RemoveLocally(list, id)
  {
    var m := FirstIndex(list, (y: Reservation) => y.id == id);
    if m.Some? {
      DeleteAt(list, id, m.value);
      FilterSkips(list, (x: Reservation) => x.id != id, m.value);
    } else {
      forall x | x in list
        ensures x.id != id
      {
        var k :| 0 <= k < |list| && list[k] == x;
      }
    }
  }

  /** With duplicate ids the two disagree: the store removes one record,
      the local list every record with the id. */
  lemma RemoveLocallyDiffersOnDuplicates(a: Reservation, b: Reservation)
    requires a.id == b.id
    ensures DeleteReservation([a, b], a.id) == [b]
    ensures RemoveLocally([a, b], a.id) == []
  {
    assert [a, b][1..] == [b];
  }

  /** The distinct dates of the list. */
  function DatesOf(list: seq<Reservation>): set<string> {
    set x | x in list :: x.date
  }

  /** The reservations of one date, in list order. */
  function OnDate(list: seq<Reservation>, d: string): seq<Reservation> {
    Filter(list, (x: Reservation) => x.date == d)
  }

  lemma OnDateSnoc(list: seq<Reservation>, x: Reservation)
    ensures forall d :: OnDate(list + [x], d) == OnDate(list, d) + (if x.date == d then [x] else [])
  {
    forall d
      ensures OnDate(list + [x], d) == OnDate(list, d) + (if x.date == d then [x] else [])
    {
      FilterAppend(list, [x], (y: Reservation) => y.date == d);
      assert Filter([x], (y: Reservation) => y.date == d) == (if x.date == d then [x] else []);
    }
  }

  /** The grouping map of the list view, built as the `forEach` builds it:
      each reservation pushed, in turn, onto the group of its date. The
      group of a date holds exactly that date's reservations, in list order. */
  function GroupByDate(list: seq<Reservation>): (g: map<string, seq<Reservation>>)
    ensures g.Keys == DatesOf(list)
    ensures forall d | d in g :: g[d] == OnDate(list, d)
    decreases |list|
  {
    if |list| == 0 then map[]
    else
      var prefix, x := list[..|list| - 1], list[|list| - 1];
      var g := GroupByDate(prefix);
      var g' := g[x.date := (if x.date in g then g[x.date] else []) + [x]];
      assert list == prefix + [x];
      GroupStep(list, prefix, x, g);
      g'
  }

  /** Pushing one more reservation onto its date's group keeps the grouping
      exact. */
  lemma GroupStep(list: seq<Reservation>, prefix: seq<Reservation>, x: Reservation, g: map<string, seq<Reservation>>)
    requires list == prefix + [x]
    requires g.Keys == DatesOf(prefix)
    requires forall d | d in g :: g[d] == OnDate(prefix, d)
    ensures var g' := g[x.date := (if x.date in g then g[x.date] else []) + [x]];
      && g'.Keys == DatesOf(list)
      && forall d | d in g' :: g'[d] == OnDate(list, d)
  {
    OnDateSnoc(prefix, x);
    assert DatesOf(prefix + [x]) == DatesOf(prefix) + {x.date};
    if x.date !in g {
      NoGroupNoneOnDate(prefix, x.date);
    }
  }

  lemma NoGroupNoneOnDate(list: seq<Reservation>, d: string)
    requires d !in DatesOf(list)
    ensures OnDate(list, d) == []
  {
    assert forall x | x in list :: x.date in DatesOf(list);
    FilterNone(list, (x: Reservation) => x.date == d);
  }

  /** The groups partition the list: every reservation is in the group of
      its own date and in no other. */
  lemma GroupsPartition(list: seq<Reservation>)
    ensures var g := GroupByDate(list);
      forall x | x in list :: x.date in g && x in g[x.date]
    ensures var g := GroupByDate(list);
      forall d, x | d in g && x in g[d] :: x in list && x.date == d
  {
    var g := GroupByDate(list);
    forall x | x in list
      ensures x.date in g && x in g[x.date]
    {
      assert x.date in DatesOf(list);
    }
  }

  /** Each group keeps the list's order. */
  lemma GroupsKeepListOrder(list: seq<Reservation>)
    ensures var g := GroupByDate(list);
      forall d | d in g :: IsSubsequence(g[d], list)
  {
    var g := GroupByDate(list);
    forall d | d in g
      ensures IsSubsequence(g[d], list)
    {
      FilterIsSubsequence(list, (x: Reservation) => x.date == d);
    }
  }

  /** The groups, taken in heading order, hold as many reservations as the
      list. */
  lemma GroupsCoverList(list: seq<Reservation>)
    ensures GroupSizes(GroupByDate(list), SortedDates(list)) == |list|
  {
    var ds := SortedDates(list);
    forall x | x in list
      ensures x.date in ds
    {
      assert x.date in DatesOf(list);
    }
    SizesOverDistinct(ds, list);
    GroupSizesAreDateCounts(GroupByDate(list), ds, list);
  }

  /** The total size of the groups named by `keys`. */
  function GroupSizes(g: map<string, seq<Reservation>>, keys: seq<string>): nat
    requires forall k | k in keys :: k in g
  {
    if |keys| == 0 then 0 else |g[keys[0]]| + GroupSizes(g, keys[1..])
  }

  /** The number of reservations on each of the dates `keys`, summed. */
  function DateCounts(keys: seq<string>, list: seq<Reservation>): nat {
    if |keys| == 0 then 0 else |OnDate(list, keys[0])| + DateCounts(keys[1..], list)
  }

  lemma {:induction false} GroupSizesAreDateCounts(g: map<string, seq<Reservation>>, keys: seq<string>, list: seq<Reservation>)
    requires g == GroupByDate(list)
    requires forall k | k in keys :: k in g
    ensures GroupSizes(g, keys) == DateCounts(keys, list)
    decreases |keys|
  {
    if |keys| > 0 {
      GroupSizesAreDateCounts(g, keys[1..], list);
    }
  }

  /** No date is listed twice. */
  predicate Distinct(keys: seq<string>)
    decreases |keys|
  {
    |keys| == 0 || (keys[0] !in keys[1..] && Distinct(keys[1..]))
  }

  lemma {:induction false} DateCountsSnoc(keys: seq<string>, list: seq<Reservation>, x: Reservation)
    requires Distinct(keys)
    ensures DateCounts(keys, list + [x]) == DateCounts(keys, list) + (if x.date in keys then 1 else 0)
    decreases |keys|
  {
    if |keys| > 0 {
      OnDateSnoc(list, x);
      DateCountsSnoc(keys[1..], list, x);
    }
  }

  /** Counting the reservations date by date, over distinct dates that
      cover the list, counts each reservation once. */
  lemma {:induction false} SizesOverDistinct(keys: seq<string>, list: seq<Reservation>)
    requires Distinct(keys)
    requires forall x | x in list :: x.date in keys
    ensures DateCounts(keys, list) == |list|
    decreases |list|
  {
    if |list| == 0 {
      DateCountsEmpty(keys);
    } else {
      var prefix, x := list[..|list| - 1], list[|list| - 1];
      assert list == prefix + [x];
      assert forall y | y in prefix :: y in list;
      SizesOverDistinct(keys, prefix);
      DateCountsSnoc(keys, prefix, x);
    }
  }

  lemma {:induction false} DateCountsEmpty(keys: seq<string>)
    ensures DateCounts(keys, []) == 0
    decreases |keys|
  {
    if |keys| > 0 {
      DateCountsEmpty(keys[1..]);
    }
  }

  /** Every date before every later one in the string order that the sort
      comparator induces on ISO dates. */
  predicate StrictlyAscending(keys: seq<string>) {
    forall i, j :: 0 <= i < j < |keys| ==> LexLess(keys[i], keys[j])
  }

  /** Inserts `d` into an ascending sequence of distinct dates. */
  function InsertDate(sorted: seq<string>, d: string): (r: seq<string>)
    requires StrictlyAscending(sorted)
    ensures StrictlyAscending(r)
    ensures forall e :: e in r <==> e in sorted || e == d
    decreases |sorted|
  {
    if |sorted| == 0 then [d]
    else if d == sorted[0] then sorted
    else if LexLess(d, sorted[0]) then
      assert forall j :: 0 < j < |sorted| ==> LexLess(d, sorted[j]) by {
        forall j | 0 < j < |sorted|
          ensures LexLess(d, sorted[j])
        {
          LexLessTransitive(d, sorted[0], sorted[j]);
        }
      }
      [d] + sorted
    else
      LexLessStrictTotal(d, sorted[0]);
      var rest := InsertDate(sorted[1..], d);
      assert forall e | e in rest :: LexLess(sorted[0], e);
      [sorted[0]] + rest
  }

  /** `Object.keys(groups).sort(byDate)`: the distinct dates of the list in
      ascending order. */
  function SortedDates(list: seq<Reservation>): (r: seq<string>)
    ensures StrictlyAscending(r)
    ensures Distinct(r)
    ensures forall d :: d in r <==> d in DatesOf(list)
    decreases |list|
  {
    if |list| == 0 then []
    else
      var prefix, x := list[..|list| - 1], list[|list| - 1];
      assert list == prefix + [x];
      assert DatesOf(list) == DatesOf(prefix) + {x.date};
      var r := InsertDate(SortedDates(prefix), x.date);
      AscendingIsDistinct(r);
      r
  }

  lemma {:induction false} AscendingIsDistinct(keys: seq<string>)
    requires StrictlyAscending(keys)
    ensures Distinct(keys)
    decreases |keys|
  {
    if |keys| > 0 {
      forall j | 0 <= j < |keys| - 1
        ensures keys[1..][j] != keys[0]
      {
        LexLessStrictTotal(keys[0], keys[j + 1]);
      }
      assert StrictlyAscending(keys[1..]) by {
        forall i, j | 0 <= i < j < |keys| - 1
          ensures LexLess(keys[1..][i], keys[1..][j])
        {
          assert keys[1..][i] == keys[i + 1] && keys[1..][j] == keys[j + 1];
        }
      }
      AscendingIsDistinct(keys[1..]);
    }
  }

  /** The headings are exactly the groups' dates. */
  lemma SortedDatesAreGroupKeys(list: seq<Reservation>)
    ensures forall d :: d in SortedDates(list) <==> d in GroupByDate(list)
  {
    var g := GroupByDate(list);
    forall d
      ensures d in SortedDates(list) <==> d in g
    {
      assert d in g <==> d in g.Keys;
    }
  }

  /** For well-formed ISO dates the headings run in chronological order. */
  lemma SortedDatesChronological(list: seq<Reservation>)
    requires forall x | x in list :: WellFormedDate(x.date)
    ensures var ds := SortedDates(list);
      forall i, j | 0 <= i < j < |ds| :: WellFormedDate(ds[i]) && WellFormedDate(ds[j]) && DateBefore(ds[i], ds[j])
  {
    var ds := SortedDates(list);
    forall d | d in ds
      ensures WellFormedDate(d)
    {
      assert d in DatesOf(list);
      var x :| x in list && x.date == d;
    }
    AscendingIsChronological(ds);
  }

  lemma AscendingIsChronological(ds: seq<string>)
    requires StrictlyAscending(ds)
    requires forall d | d in ds :: WellFormedDate(d)
    ensures forall i, j | 0 <= i < j < |ds| :: WellFormedDate(ds[i]) && WellFormedDate(ds[j]) && DateBefore(ds[i], ds[j])
  {
    forall i, j | 0 <= i < j < |ds|
      ensures WellFormedDate(ds[i]) && WellFormedDate(ds[j]) && DateBefore(ds[i], ds[j])
    {
      assert ds[i] in ds && ds[j] in ds;
      DateOrder(ds[i], ds[j]);
    }
  }
}

=== FILE: reservation_store.dfy ===
/** The mock back end's reservation store: `createReservation` appends a
    record built from the form data and the room, `deleteReservation`
    removes the first record with a given id. The store is the sequence of
    records; each operation returns the next one. */
module ReservationStore {
  import opened Wrappers
  import opened Types
  import opened Text
  import opened Seqs

  /** The requester every created reservation is attributed to. */
  const CurrentUser := "Prof. Silva"

  datatype StoreError = RoomNotFound

  /** A successful creation: the next store and the record appended. */
  datatype Created = Created(store: seq<Reservation>, record: Reservation)

  /** `rooms.find(r => r.id === id)`: the first room with that id. */
  function FindRoom(rooms: seq<Room>, id: string): (r: Option<Room>)
    ensures r.None? <==> forall room | room in rooms :: room.id != id
    ensures r.Some? ==>
      exists i :: 0 <= i < |rooms| && rooms[i] == r.value && r.value.id == id
        && forall j :: 0 <= j < i ==> rooms[j].id != id
  {
    match FirstIndex(rooms, (room: Room) => room.id == id)
    case None => None
    case Some(i) => Some(rooms[i])
  }

  /** `createReservation(data)`. The new record's id is the decimal string
      of the store's length plus one; room and block names are copied from
      the first room with the form's room id. Nothing about the other reservations or the times is
      checked. */
  function CreateReservation(rooms: seq<Room>, store: seq<Reservation>, data: ReservationFormData)
    : (r: Result<Created, StoreError>)
    ensures r.Failure? <==> forall room | room in rooms :: room.id != data.roomId
    ensures r.Success? ==>
      && r.value.store == store + [r.value.record]
      && r.value.record.id == DecimalString(|store| + 1)
      && r.value.record.roomId == data.roomId
      && r.value.record.date == data.date
      && r.value.record.startTime == data.startTime
      && r.value.record.endTime == data.endTime
      && r.value.record.purpose == data.purpose
      && r.value.record.createdBy == CurrentUser
      && exists i | 0 <= i < |rooms| ::
           && rooms[i].id == data.roomId
           && (forall j | 0 <= j < i :: rooms[j].id != data.roomId)
           && r.value.record.roomName == rooms[i].name
           && r.value.record.blockName == rooms[i].block
  {
    match FindRoom(rooms, data.roomId)
    case None => Failure(RoomNotFound)
    case Some(room) =>
      var record := Reservation(
        DecimalString(|store| + 1), data.roomId, room.name, room.block,
        data.date, data.startTime, data.endTime, data.purpose, CurrentUser);
      Success(Created(store + [record], record))
  }

  /** `deleteReservation(id)`: the first record with that id is removed and
      the others keep their order; an unknown id changes nothing. */
  function DeleteReservation(store: seq<Reservation>, id: string): (r: seq<Reservation>)
    ensures (forall x | x in store :: x.id != id) ==> r == store
    ensures (exists x | x in store :: x.id == id) ==>
      exists i :: 0 <= i < |store| && store[i].id == id && r == store[..i] + store[i + 1..]
        && forall j :: 0 <= j < i ==> store[j].id != id
  {
    match FirstIndex(store, (x: Reservation) => x.id == id)
    case None => store
    case Some(i) => store[..i] + store[i + 1..]
  }

  /** Creation never looks at the other reservations nor at the times: it
      succeeds for the very slot of an existing reservation, leaving two
      reservations of the same room, date and hours, and it succeeds when
      the end time precedes the start time. */
  lemma CreateChecksNoConflict(rooms: seq<Room>, store: seq<Reservation>, x: Reservation, purpose: string)
    requires x in store
    requires exists room | room in rooms :: room.id == x.roomId
    ensures var r := CreateReservation(rooms, store, ReservationFormData(x.roomId, x.date, x.startTime, x.endTime, purpose));
      && r.Success?
      && x in r.value.store && r.value.record in r.value.store
      && r.value.record.roomId == x.roomId && r.value.record.date == x.date
      && r.value.record.startTime == x.startTime && r.value.record.endTime == x.endTime
    ensures var r := CreateReservation(rooms, store, ReservationFormData(x.roomId, x.date, "10:00", "08:00", purpose));
      r.Success? && r.value.record.startTime == "10:00" && r.value.record.endTime == "08:00"
  {
    var r := CreateReservation(rooms, store, ReservationFormData(x.roomId, x.date, x.startTime, x.endTime, purpose));
    assert r.value.store == store + [r.value.record];
    assert r.value.store[|store|] == r.value.record;
  }

  /** Deleting an id whose first occurrence is at position i removes
      exactly that position. */
  lemma DeleteAt(store: seq<Reservation>, id: string, i: nat)
    requires i < |store| && store[i].id == id
    requires forall j :: 0 <= j < i ==> store[j].id != id
    ensures DeleteReservation(store, id) == store[..i] + store[i + 1..]
  {
    assert store[i] in store;
    var k :| 0 <= k < |store| && store[k].id == id && DeleteReservation(store, id) == store[..k] + store[k + 1..]
      && forall j :: 0 <= j < k ==> store[j].id != id;
    assert k == i;
  }

  /** Deleting the record just created, when its id was not taken before,
      gives back the store as it was. */
  lemma DeleteUndoesCreate(rooms: seq<Room>, store: seq<Reservation>, data: ReservationFormData)
    requires forall x | x in store :: x.id != DecimalString(|store| + 1)
    ensures var r := CreateReservation(rooms, store, data);
      r.Success? ==> DeleteReservation(r.value.store, r.value.record.id) == store
  {
    var r := CreateReservation(rooms, store, data);
    if r.Success? {
      DeleteLastAppended(store, r.value.record);
    }
  }

  lemma DeleteLastAppended(store: seq<Reservation>, record: Reservation)
    requires forall x | x in store :: x.id != record.id
    ensures DeleteReservation(store + [record], record.id) == store
  {
    var next := store + [record];
    forall j | 0 <= j < |store|
      ensures next[j].id != record.id
    {
      assert next[j] == store[j] && store[j] in store;
    }
    DeleteAt(next, record.id, |store|);
    assert next[..|store|] == store;
  }

  /** The ids of a store that has only ever been appended to: "1", "2", ... */
  predicate SequentialIds(store: seq<Reservation>) {
    forall i :: 0 <= i < |store| ==> store[i].id == DecimalString(i + 1)
  }

  predicate UniqueIds(store: seq<Reservation>) {
    forall i, j :: 0 <= i < j < |store| ==> store[i].id != store[j].id
  }

  lemma SequentialIdsAreUnique(store: seq<Reservation>)
    requires SequentialIds(store)
    ensures UniqueIds(store)
  {
    forall i, j | 0 <= i < j < |store|
      ensures store[i].id != store[j].id
    {
      DecimalInjective(i + 1, j + 1);
    }
  }

  /** As long as nothing is deleted, creation keeps the ids sequential and
      therefore distinct. */
  lemma CreateKeepsSequentialIds(rooms: seq<Room>, store: seq<Reservation>, data: ReservationFormData)
    requires SequentialIds(store)
    ensures var r := CreateReservation(rooms, store, data);
      r.Success? ==> SequentialIds(r.value.store) && UniqueIds(r.value.store)
  {
    var r := CreateReservation(rooms, store, data);
    if r.Success? {
      assert SequentialIds(r.value.store);
      SequentialIdsAreUnique(r.value.store);
    }
  }

  /** Because the id is derived from the length, deleting any record but the
      last and then creating one reuses the last record's id: the store ends
      up with two records of id `String(n)`, n the original length. */
  lemma DeleteThenCreateDuplicatesId(rooms: seq<Room>, store: seq<Reservation>, k: nat, data: ReservationFormData)
    requires SequentialIds(store)
    requires k + 1 < |store|
    requires exists room | room in rooms :: room.id == data.roomId
    ensures var r := CreateReservation(rooms, DeleteReservation(store, store[k].id), data);
      && r.Success?
      && r.value.record.id == DecimalString(|store|)
      && |r.value.store| == |store|
      && r.value.store[|store| - 2].id == r.value.record.id
      && r.value.store[|store| - 1] == r.value.record
  {
    SequentialIdsAreUnique(store);
    var after := DeleteReservation(store, store[k].id);
    DeleteAt(store, store[k].id, k);
    assert |after| == |store| - 1;
    assert after[|store| - 2] == store[|store| - 1];
  }
}

=== FILE: room_query.dfy ===
/** The room query of the mock back end (`getRooms`): five guarded filter
    passes over the room inventory, one per field of `RoomFilters`. */
module RoomQuery {
  import opened Wrappers
  import opened Types
  import opened Text
  import opened Seqs

  // Each pass runs only when its field is "truthy" in JavaScript terms: a
  // non-empty string, a non-zero number, a non-empty list. The availability
  // pass runs whenever the field is defined, `false` included.

  predicate BlockSet(f: RoomFilters) {
    f.block.Some? && |f.block.value| > 0
  }

  predicate CapacitySet(f: RoomFilters) {
    f.capacity.Some? && f.capacity.value != 0
  }

  predicate ResourcesSet(f: RoomFilters) {
    f.resources.Some? && |f.resources.value| > 0
  }

  predicate QuerySet(f: RoomFilters) {
    f.query.Some? && |f.query.value| > 0
  }

  // The five passes, in the order the back end applies them.

  function ByBlock(rooms: seq<Room>, f: RoomFilters): seq<Room> {
    if BlockSet(f) then Filter(rooms, (room: Room) => room.block == f.block.value)
    else rooms
  }

  function ByCapacity(rooms: seq<Room>, f: RoomFilters): seq<Room> {
    if CapacitySet(f) then Filter(rooms, (room: Room) => room.capacity >= f.capacity.GetOr(0))
    else rooms
  }

  function ByResources(rooms: seq<Room>, f: RoomFilters): seq<Room> {
    if ResourcesSet(f) then
      Filter(rooms, (room: Room) =>
        forall rid | rid in f.resources.value :: OffersResource(room, rid))
    else rooms
  }

  function ByQuery(rooms: seq<Room>, f: RoomFilters): seq<Room> {
    if QuerySet(f) then
      var q := Lower(f.query.value);
      Filter(rooms, (room: Room) => Contains(Lower(room.name), q) || Contains(Lower(room.block), q))
    else rooms
  }

  function ByAvailability(rooms: seq<Room>, f: RoomFilters): seq<Room> {
    if f.available.Some? then Filter(rooms, (room: Room) => room.available == f.available.value)
    else rooms
  }

  /** `getRooms(filters)` over the inventory `rooms`. */
  function GetRooms(rooms: seq<Room>, f: RoomFilters): seq<Room> {
    ByAvailability(ByQuery(ByResources(ByCapacity(ByBlock(rooms, f), f), f), f), f)
  }

  /** The room offers a resource whose id is `rid`. */
  predicate OffersResource(room: Room, rid: string) {
    exists res | res in room.resources :: res.id == rid
  }

  /** The case-insensitive search text occurs in the room's name or block. */
  predicate MentionsText(room: Room, query: string) {
    Contains(Lower(room.name), Lower(query)) || Contains(Lower(room.block), Lower(query))
  }

  // What each pass keeps, with its guard folded in: a pass whose field is
  // inert keeps every room.

  predicate PassesBlock(f: RoomFilters, room: Room) {
    BlockSet(f) ==> room.block == f.block.value
  }

  predicate PassesCapacity(f: RoomFilters, room: Room) {
    CapacitySet(f) ==> room.capacity >= f.capacity.value
  }

  predicate PassesResources(f: RoomFilters, room: Room) {
    ResourcesSet(f) ==> forall rid | rid in f.resources.value :: OffersResource(room, rid)
  }

  predicate PassesQuery(f: RoomFilters, room: Room) {
    QuerySet(f) ==> MentionsText(room, f.query.value)
  }

  predicate PassesAvailability(f: RoomFilters, room: Room) {
    f.available.Some? ==> room.available == f.available.value
  }

  /** The whole query as one condition on a room. */
  predicate Matches(f: RoomFilters, room: Room) {
    && PassesBlock(f, room)
    && PassesCapacity(f, room)
    && PassesResources(f, room)
    && PassesQuery(f, room)
    && PassesAvailability(f, room)
  }

  function Matcher(f: RoomFilters): Room -> bool {
    (room: Room) => Matches(f, room)
  }

  lemma ByBlockFilters(rooms: seq<Room>, f: RoomFilters, p: Room -> bool)
    requires forall room :: p(room) == PassesBlock(f, room)
    ensures ByBlock(rooms, f) == Filter(rooms, p)
  {
    if BlockSet(f) {
      FilterCongruent(rooms, (room: Room) => room.block == f.block.value, p);
    } else {
      FilterAll(rooms, p);
    }
  }

  lemma ByCapacityFilters(rooms: seq<Room>, f: RoomFilters, p: Room -> bool)
    requires forall room :: p(room) == PassesCapacity(f, room)
    ensures ByCapacity(rooms, f) == Filter(rooms, p)
  {
    if CapacitySet(f) {
      FilterCongruent(rooms, (room: Room) => room.capacity >= f.capacity.GetOr(0), p);
    } else {
      FilterAll(rooms, p);
    }
  }

  lemma ByResourcesFilters(rooms: seq<Room>, f: RoomFilters, p: Room -> bool)
    requires forall room :: p(room) == PassesResources(f, room)
    ensures ByResources(rooms, f) == Filter(rooms, p)
  {
    if ResourcesSet(f) {
      FilterCongruent(rooms, (room: Room) =>
        forall rid | rid in f.resources.value :: OffersResource(room, rid), p);
    } else {
      FilterAll(rooms, p);
    }
  }

  lemma ByQueryFilters(rooms: seq<Room>, f: RoomFilters, p: Room -> bool)
    requires forall room :: p(room) == PassesQuery(f, room)
    ensures ByQuery(rooms, f) == Filter(rooms, p)
  {
    if QuerySet(f) {
      var q := Lower(f.query.value);
      FilterCongruent(rooms, (room: Room) => Contains(Lower(room.name), q) || Contains(Lower(room.block), q), p);
    } else {
      FilterAll(rooms, p);
    }
  }

  lemma ByAvailabilityFilters(rooms: seq<Room>, f: RoomFilters, p: Room -> bool)
    requires forall room :: p(room) == PassesAvailability(f, room)
    ensures ByAvailability(rooms, f) == Filter(rooms, p)
  {
    if f.available.Some? {
      FilterCongruent(rooms, (room: Room) => room.available == f.available.value, p);
    } else {
      FilterAll(rooms, p);
    }
  }

  /** The five successive passes select exactly what one pass with the
      conjunction of all conditions selects, in the same order. */
  lemma GetRoomsIsOnePass(rooms: seq<Room>, f: RoomFilters)
    ensures GetRooms(rooms, f) == Filter(rooms, Matcher(f))
  {
    var m1 := (room: Room) => PassesBlock(f, room);
    var m2 := (room: Room) => m1(room) && PassesCapacity(f, room);
    var m3 := (room: Room) => m2(room) && PassesResources(f, room);
    var m4 := (room: Room) => m3(room) && PassesQuery(f, room);
    var m5 := (room: Room) => m4(room) && PassesAvailability(f, room);
    var r1 := ByBlock(rooms, f);
    ByBlockFilters(rooms, f, m1);
    var r2 := ByCapacity(r1, f);
    ByCapacityFilters(r1, f, (room: Room) => PassesCapacity(f, room));
    FilterFilter(rooms, m1, (room: Room) => PassesCapacity(f, room), m2);
    var r3 := ByResources(r2, f);
    ByResourcesFilters(r2, f, (room: Room) => PassesResources(f, room));
    FilterFilter(rooms, m2, (room: Room) => PassesResources(f, room), m3);
    var r4 := ByQuery(r3, f);
    ByQueryFilters(r3, f, (room: Room) => PassesQuery(f, room));
    FilterFilter(rooms, m3, (room: Room) => PassesQuery(f, room), m4);
    ByAvailabilityFilters(r4, f, (room: Room) => PassesAvailability(f, room));
    FilterFilter(rooms, m4, (room: Room) => PassesAvailability(f, room), m5);
    FilterCongruent(rooms, m5, Matcher(f));
  }

  /** The query returns, in inventory order, exactly the rooms that meet
      every set field: the exact (case-sensitive) block, a capacity at
      least the requested one, every requested resource id, the search text
      in name or block ignoring case, and the requested availability flag. */
  lemma GetRoomsSelects(rooms: seq<Room>, f: RoomFilters)
    ensures IsSubsequence(GetRooms(rooms, f), rooms)
    ensures forall room :: room in GetRooms(rooms, f) <==>
      && room in rooms
      && (BlockSet(f) ==> room.block == f.block.value)
      && (CapacitySet(f) ==> room.capacity >= f.capacity.value)
      && (ResourcesSet(f) ==>
            forall rid | rid in f.resources.value :: OffersResource(room, rid))
      && (QuerySet(f) ==>
            MentionsText(room, f.query.value))
      && (f.available.Some? ==> room.available == f.available.value)
  {
    GetRoomsIsOnePass(rooms, f);
    FilterIsSubsequence(rooms, Matcher(f));
  }

  /** A query whose fields are all absent or empty returns the whole
      inventory, in order. */
  lemma GetRoomsInert(rooms: seq<Room>, f: RoomFilters)
    requires !BlockSet(f) && !CapacitySet(f) && !ResourcesSet(f) && !QuerySet(f)
    requires f.available.None?
    ensures GetRooms(rooms, f) == rooms
  {
    GetRoomsIsOnePass(rooms, f);
    FilterAll(rooms, Matcher(f));
  }

  /** `available: false` keeps only the rooms flagged unavailable. */
  lemma AvailableFalseSelectsOccupied(rooms: seq<Room>, f: RoomFilters)
    requires f.available == Some(false)
    ensures forall room :: room in GetRooms(rooms, f) ==> room in rooms && !room.available
  {
    GetRoomsSelects(rooms, f);
  }

  /** Adding a field to a query can only narrow its result: every room of
      the narrower query is also returned by the wider one. */
  lemma GetRoomsMonotone(rooms: seq<Room>, wide: RoomFilters, narrow: RoomFilters)
    requires forall room :: Matches(narrow, room) ==> Matches(wide, room)
    ensures forall room :: room in GetRooms(rooms, narrow) ==> room in GetRooms(rooms, wide)
  {
    GetRoomsIsOnePass(rooms, wide);
    GetRoomsIsOnePass(rooms, narrow);
  }

  /** The search text's case does not matter: lower-casing it first
      returns the same rooms. */
  lemma QueryIgnoresCase(rooms: seq<Room>, f: RoomFilters, q: string)
    requires f.query == Some(q)
    ensures GetRooms(rooms, f.(query := Some(Lower(q)))) == GetRooms(rooms, f)
  {
    var g := f.(query := Some(Lower(q)));
    LowerIdempotent(q);
    assert forall room :: Matches(g, room) == Matches(f, room);
    GetRoomsIsOnePass(rooms, f);
    GetRoomsIsOnePass(rooms, g);
    FilterCongruent(rooms, Matcher(g), Matcher(f));
  }

  /** A room whose name, lower-cased, contains the lower-cased search text
      is found by a search for it alone. */
  lemma NameHitIsFound(rooms: seq<Room>, room: Room, q: string, before: string, after: string)
    requires room in rooms
    requires |q| > 0
    requires Lower(room.name) == before + Lower(q) + after
    ensures room in GetRooms(rooms, RoomFilters(None, None, None, Some(q), None))
  {
    ContainsFacts(before, Lower(q), after);
    GetRoomsSelects(rooms, RoomFilters(None, None, None, Some(q), None));
  }

  // Worked scenarios with a small inventory.

  const Projector := Resource("1", "Projetor")
  const Board := Resource("3", "Quadro Interativo")
  const Audio := Resource("4", "Sistema de Áudio")
  const Large := Room("1", "Sala 101", "Bloco A", 40, [Projector, Board, Audio], true)
  const Small := Room("2", "Sala 102", "Bloco A", 25, [Projector, Board], false)

  /** Capacity is a minimum, boundary included: at 30 only the room of 40
      seats is left; at 25 both rooms are. */
  lemma CapacityScenario()
    ensures GetRooms([Large, Small], RoomFilters(None, Some(30), None, None, None)) == [Large]
    ensures GetRooms([Large, Small], RoomFilters(None, Some(25), None, None, None)) == [Large, Small]
  {
    GetRoomsIsOnePass([Large, Small], RoomFilters(None, Some(30), None, None, None));
    GetRoomsIsOnePass([Large, Small], RoomFilters(None, Some(25), None, None, None));
  }

  /** Resources are all-of: asking for "1" and "4" keeps the room holding
      both and drops the one holding only "1". */
  lemma ResourcesScenario()
    ensures GetRooms([Large, Small], RoomFilters(None, None, Some(["1", "4"]), None, None)) == [Large]
  {
    var f := RoomFilters(None, None, Some(["1", "4"]), None, None);
    GetRoomsIsOnePass([Large, Small], f);
    assert OffersResource(Large, "1") && OffersResource(Large, "4") by {
      assert Large.resources[0].id == "1" && Large.resources[2].id == "4";
    }
    assert !OffersResource(Small, "4");
    assert Matches(f, Large) && !Matches(f, Small);
  }

  /** The search ignores case: "bloco a" finds rooms of block "Bloco A". */
  lemma QueryScenario()
    ensures GetRooms([Large], RoomFilters(None, None, None, Some("bloco a"), None)) == [Large]
  {
    var f := RoomFilters(None, None, None, Some("bloco a"), None);
    GetRoomsIsOnePass([Large], f);
    assert Lower("Bloco A") == "bloco a";
    assert Lower("bloco a") == "bloco a";
    assert OccursAt(Lower(Large.block), Lower("bloco a"), 0);
    assert Matches(f, Large);
  }
}

=== FILE: seqs.dfy ===
/** Order-preserving filtering of sequences, the model of JavaScript's
    `Array.prototype.filter`, and the subsequence relation it establishes. */
module Seqs {
  import opened Wrappers

  /** `r` is obtained from `s` by deleting elements, the rest kept in order. */
  ghost predicate IsSubsequence<T>(r: seq<T>, s: seq<T>)
    decreases |s|
  {
    if |r| == 0 then true
    else if |s| == 0 then false
    else (r[0] == s[0] && IsSubsequence(r[1..], s[1..])) || IsSubsequence(r, s[1..])
  }

  /** The elements of `s` satisfying `p`, in their original order. */
  function Filter<T(!new)>(s: seq<T>, p: T -> bool): (r: seq<T>)
    ensures |r| <= |s|
    ensures forall x {:trigger x in r} :: x in r <==> x in s && p(x)
    decreases |s|
  {
    if |s| == 0 then []
    else (if p(s[0]) then [s[0]] else []) + Filter(s[1..], p)
  }

  /** Filtering keeps the kept elements in their original order. */
  lemma {:induction false} FilterIsSubsequence<T(!new)>(s: seq<T>, p: T -> bool)
    ensures IsSubsequence(Filter(s, p), s)
    decreases |s|
  {
    if |s| > 0 {
      FilterIsSubsequence(s[1..], p);
      var rest := Filter(s[1..], p);
      if p(s[0]) {
        assert Filter(s, p) == [s[0]] + rest;
        assert ([s[0]] + rest)[1..] == rest;
      } else {
        assert Filter(s, p) == rest;
        if |rest| > 0 {
          assert rest[0] in rest;
          assert rest[0] != s[0];
        }
      }
    }
  }

  /** A predicate that holds of every element filters nothing out. */
  lemma {:induction false} FilterAll<T(!new)>(s: seq<T>, p: T -> bool)
    requires forall x :: x in s ==> p(x)
    ensures Filter(s, p) == s
    decreases |s|
  {
    if |s| > 0 {
      assert s[0] in s;
      assert forall x :: x in s[1..] ==> x in s;
      FilterAll(s[1..], p);
      assert [s[0]] + s[1..] == s;
    }
  }

  /** A predicate that holds of no element filters everything out. */
  lemma {:induction false} FilterNone<T(!new)>(s: seq<T>, p: T -> bool)
    requires forall x :: x in s ==> !p(x)
    ensures Filter(s, p) == []
    decreases |s|
  {
    if |s| > 0 {
      assert s[0] in s;
      assert forall x :: x in s[1..] ==> x in s;
      FilterNone(s[1..], p);
    }
  }

  /** Filtering with two predicates that agree on `s` gives the same result. */
  lemma {:induction false} FilterCongruent<T(!new)>(s: seq<T>, p: T -> bool, q: T -> bool)
    requires forall x :: x in s ==> p(x) == q(x)
    ensures Filter(s, p) == Filter(s, q)
    decreases |s|
  {
    if |s| > 0 {
      assert s[0] in s;
      assert forall x :: x in s[1..] ==> x in s;
      FilterCongruent(s[1..], p, q);
    }
  }

  /** Two successive filter passes are one pass with the conjunction. */
  lemma {:induction false} FilterFilter<T(!new)>(s: seq<T>, p: T -> bool, q: T -> bool, pq: T -> bool)
    requires forall x :: pq(x) == (p(x) && q(x))
    ensures Filter(Filter(s, p), q) == Filter(s, pq)
    decreases |s|
  {
    if |s| > 0 {
      FilterFilter(s[1..], p, q, pq);
      var head := if p(s[0]) then [s[0]] else [];
      FilterAppend(head, Filter(s[1..], p), q);
      assert Filter(s, p) == head + Filter(s[1..], p);
      if p(s[0]) {
        assert head[1..] == [];
      }
    }
  }

  /** Filtering keeps every copy of a kept element and no copy of a dropped
      one. */
  lemma {:induction false} FilterCounts<T(!new)>(s: seq<T>, p: T -> bool)
    ensures forall x :: multiset(Filter(s, p))[x] == if p(x) then multiset(s)[x] else 0
    decreases |s|
  {
    if |s| > 0 {
      FilterCounts(s[1..], p);
      assert s == [s[0]] + s[1..];
      assert Filter(s, p) == (if p(s[0]) then [s[0]] else []) + Filter(s[1..], p);
    }
  }

  /** A filter that drops a present element yields a shorter sequence. */
  lemma {:induction false} FilterShrinks<T(!new)>(s: seq<T>, p: T -> bool, x: T)
    requires x in s && !p(x)
    ensures |Filter(s, p)| < |s|
    decreases |s|
  {
    if s[0] != x {
      FilterShrinks(s[1..], p, x);
    }
  }

  /** Removing one element the filter drops anyway changes nothing. */
  lemma {:induction false} FilterSkips<T(!new)>(s: seq<T>, p: T -> bool, i: nat)
    requires i < |s| && !p(s[i])
    ensures Filter(s[..i] + s[i + 1..], p) == Filter(s, p)
    decreases i
  {
    var t := s[..i] + s[i + 1..];
    if i == 0 {
      assert t == s[1..];
    } else {
      FilterSkips(s[1..], p, i - 1);
      assert t[0] == s[0];
      assert t[1..] == s[1..][..i - 1] + s[1..][i..];
    }
  }

  /** Filtering distributes over concatenation. */
  lemma {:induction false} FilterAppend<T(!new)>(a: seq<T>, b: seq<T>, p: T -> bool)
    ensures Filter(a + b, p) == Filter(a, p) + Filter(b, p)
    decreases |a|
  {
    if |a| > 0 {
      FilterAppend(a[1..], b, p);
      assert (a + b)[1..] == a[1..] + b;
    } else {
      assert a + b == b;
    }
  }

  /** `Array.prototype.findIndex`: the position of the first element
      satisfying `p`, or `None` where JavaScript answers -1. */
  function FirstIndex<T>(s: seq<T>, p: T -> bool): (r: Option<nat>)
    ensures r.Some? ==> r.value < |s| && p(s[r.value])
    ensures r.Some? ==> forall j :: 0 <= j < r.value ==> !p(s[j])
    ensures r.None? ==> forall j :: 0 <= j < |s| ==> !p(s[j])
    decreases |s|
  {
    if |s| == 0 then None
    else if p(s[0]) then Some(0)
    else match FirstIndex(s[1..], p)
      case None => None
      case Some(k) => Some(k + 1)
  }

  /** Filtering out a single element, all others kept, deletes that one
      position. */
  lemma {:induction false} FilterDropsOne<T(!new)>(s: seq<T>, p: T -> bool, i: nat)
    requires i < |s| && !p(s[i])
    requires forall j :: 0 <= j < |s| && j != i ==> p(s[j])
    ensures Filter(s, p) == s[..i] + s[i + 1..]
    decreases i
  {
    var t := s[1..];
    if i == 0 {
      forall x | x in t
        ensures p(x)
      {
        var j :| 0 <= j < |t| && t[j] == x;
        assert s[j + 1] == x;
      }
      FilterAll(t, p);
    } else {
      assert forall j :: 0 <= j < |t| && j != i - 1 ==> t[j] == s[j + 1];
      FilterDropsOne(t, p, i - 1);
      assert s[..i] == [s[0]] + t[..i - 1];
      assert s[i + 1..] == t[i..];
    }
  }
}

=== FILE: text.dfy ===
/** String operations the core relies on: case folding, substring search,
    JavaScript's string order (taken
    over characters), and decimal rendering of numbers. */
module Text {

  predicate IsUpper(c: char) {
    'A' <= c <= 'Z'
  }

  predicate IsDigit(c: char) {
    '0' <= c <= '9'
  }

  predicate AllDigits(s: string) {
    forall i :: 0 <= i < |s| ==> IsDigit(s[i])
  }

  /** Lower-case of one character; only ASCII letters are folded. */
  function LowerChar(c: char): char {
    if IsUpper(c) then (c as int + 32) as char else c
  }

  /** `String.prototype.toLowerCase`, restricted to ASCII case folding. */
  function Lower(s: string): (r: string)
    ensures |r| == |s|
    ensures forall i :: 0 <= i < |r| ==> !IsUpper(r[i])
    ensures forall i :: 0 <= i < |s| ==> !IsUpper(s[i]) ==> r[i] == s[i]
    ensures forall i :: 0 <= i < |s| ==> IsUpper(s[i]) ==> r[i] as int == s[i] as int + 32
  {
    seq(|s|, i requires 0 <= i < |s| => LowerChar(s[i]))
  }

  /** Folding twice folds nothing more. */
  lemma LowerIdempotent(s: string)
    ensures Lower(Lower(s)) == Lower(s)
  {
    var l := Lower(s);
    assert forall i :: 0 <= i < |l| ==> Lower(l)[i] == l[i];
  }

  /** `needle` occurs in `hay` starting at offset `i`. */
  predicate OccursAt(hay: string, needle: string, i: int) {
    0 <= i && i + |needle| <= |hay| && hay[i..i + |needle|] == needle
  }

  /** `hay.includes(needle)`: `needle` occurs in `hay` at some offset. */
  predicate Contains(hay: string, needle: string) {
    exists i | 0 <= i <= |hay| :: OccursAt(hay, needle, i)
  }

  /** The empty string is found in every string, and every string in itself
      with anything around it. */
  lemma ContainsFacts(a: string, needle: string, b: string)
    ensures Contains(a, "")
    ensures Contains(a + needle + b, needle)
  {
    assert OccursAt(a, "", 0);
    var h := a + needle + b;
    assert OccursAt(h, needle, |a|);
  }

  /** `a < b` on JavaScript strings: lexicographic order of characters,
      a proper prefix coming first. */
  predicate LexLess(a: string, b: string)
    decreases |a|
  {
    if |a| == 0 then |b| > 0
    else if |b| == 0 then false
    else if a[0] != b[0] then a[0] < b[0]
    else LexLess(a[1..], b[1..])
  }

  /** The string order is irreflexive, asymmetric and connected; with
      `LexLessTransitive` it is a strict total order. */
  lemma {:induction false} LexLessStrictTotal(a: string, b: string)
    ensures !LexLess(a, a)
    ensures LexLess(a, b) ==> !LexLess(b, a)
    ensures a != b ==> LexLess(a, b) || LexLess(b, a)
    decreases |a|
  {
    if |a| > 0 && |b| > 0 && a[0] == b[0] {
      LexLessStrictTotal(a[1..], b[1..]);
      if a[1..] == b[1..] {
        assert a == [a[0]] + a[1..] && b == [b[0]] + b[1..];
      }
    } else if |a| > 0 {
      LexLessStrictTotal(a[1..], a[1..]);
    }
  }

  lemma {:induction false} LexLessTransitive(a: string, b: string, c: string)
    requires LexLess(a, b) && LexLess(b, c)
    ensures LexLess(a, c)
    decreases |a|
  {
    if |a| > 0 && a[0] == b[0] && b[0] == c[0] {
      LexLessTransitive(a[1..], b[1..], c[1..]);
    }
  }

  /** Comparing two concatenations whose first parts have equal length
      compares the first parts, and only on a tie the second parts. */
  lemma {:induction false} LexLessAppend(a: string, c: string, b: string, d: string)
    requires |a| == |b|
    ensures LexLess(a + c, b + d) == (LexLess(a, b) || (a == b && LexLess(c, d)))
    decreases |a|
  {
    if |a| == 0 {
      assert a + c == c && b + d == d;
    } else {
      assert (a + c)[0] == a[0] && (b + d)[0] == b[0];
      assert (a + c)[1..] == a[1..] + c && (b + d)[1..] == b[1..] + d;
      LexLessAppend(a[1..], c, b[1..], d);
      if a[0] == b[0] && a[1..] == b[1..] {
        assert a == b;
      }
      if a == b {
        assert a[1..] == b[1..];
      }
    }
  }

  /** The numeric value of the digit character `c`. */
  function DigitValue(c: char): nat
    requires IsDigit(c)
  {
    c as int - '0' as int
  }

  function DigitChar(d: nat): (c: char)
    requires d < 10
    ensures IsDigit(c) && DigitValue(c) == d
  {
    ('0' as int + d) as char
  }

  /** The number a string of decimal digits denotes. */
  function DigitsValue(s: string): nat
    requires AllDigits(s)
    decreases |s|
  {
    if |s| == 0 then 0
    else DigitsValue(s[..|s| - 1]) * 10 + DigitValue(s[|s| - 1])
  }

  /** `String(n)` for a non-negative integer: its decimal digits, without
      leading zeros. */
  function DecimalString(n: nat): (r: string)
    ensures |r| >= 1 && AllDigits(r)
    ensures |r| > 1 ==> r[0] != '0'
    decreases n
  {
    if n < 10 then [DigitChar(n)]
    else DecimalString(n / 10) + [DigitChar(n % 10)]
  }

  /** Reading the decimal string back gives the number. */
  lemma {:induction false} DecimalRoundTrip(n: nat)
    ensures DigitsValue(DecimalString(n)) == n
    decreases n
  {
    var s := DecimalString(n);
    if n >= 10 {
      DecimalRoundTrip(n / 10);
      assert s[..|s| - 1] == DecimalString(n / 10);
    }
  }

  /** Distinct numbers have distinct decimal strings. */
  lemma DecimalInjective(a: nat, b: nat)
    ensures DecimalString(a) == DecimalString(b) <==> a == b
  {
    if DecimalString(a) == DecimalString(b) {
      DecimalRoundTrip(a);
      DecimalRoundTrip(b);
    }
  }

  /** On digit strings of equal length, string order is numeric order. */
  lemma {:induction false} DigitsOrder(a: string, b: string)
    requires AllDigits(a) && AllDigits(b) && |a| == |b|
    ensures LexLess(a, b) <==> DigitsValue(a) < DigitsValue(b)
    ensures a == b <==> DigitsValue(a) == DigitsValue(b)
    decreases |a|
  {
    if |a| > 0 {
      var n := |a| - 1;
      var a', b' := a[..n], b[..n];
      assert a == a' + [a[n]] && b == b' + [b[n]];
      DigitsOrder(a', b');
      LexLessAppend(a', [a[n]], b', [b[n]]);
      var va, vb := DigitsValue(a'), DigitsValue(b');
      assert DigitsValue(a) == va * 10 + DigitValue(a[n]);
      assert DigitsValue(b) == vb * 10 + DigitValue(b[n]);
      if a' != b' {
        LexLessStrictTotal(a', b');
        if va < vb {
          assert va * 10 + 10 <= vb * 10;
        } else {
          assert vb * 10 + 10 <= va * 10;
        }
      }
    } else {
      assert a == b;
    }
  }
}

=== FILE: types.dfy ===
/** The records the application exchanges: rooms with their resources,
    reservations, the reservation form's fields and the room filter. */
module Types {
  import opened Wrappers

  /** An amenity a room may offer (projector, air conditioning, ...). */
  datatype Resource = Resource(id: string, name: string)

  /** A building grouping rooms; rooms refer to it by `name`. */
  datatype Block = Block(id: string, name: string)

  /** A room. `available` is a stored flag, not computed from reservations. */
  datatype Room = Room(
    id: string,
    name: string,
    block: string,
    capacity: int,
    resources: seq<Resource>,
    available: bool)

  /** A stored reservation; `roomName` and `blockName` are copied from the
      room when the reservation is created. */
  datatype Reservation = Reservation(
    id: string,
    roomId: string,
    roomName: string,
    blockName: string,
    date: string,
    startTime: string,
    endTime: string,
    purpose: string,
    createdBy: string)

  /** What the reservation form submits. */
  datatype ReservationFormData = ReservationFormData(
    roomId: string,
    date: string,
    startTime: string,
    endTime: string,
    purpose: string)

  /** A room query; every field may be absent. */
  datatype RoomFilters = RoomFilters(
    block: Option<string>,
    capacity: Option<int>,
    resources: Option<seq<string>>,
    query: Option<string>,
    available: Option<bool>)

  /** The query with no field set, `{}`. */
  const NoFilters := RoomFilters(None, None, None, None, None)
}

=== FILE: wrappers.dfy ===
/** Optional values and fallible results, used for the optional fields of the
    filter record and for operations that can fail. */
module Wrappers {

  /** An optional value: `None` stands for a JavaScript `undefined` field. */
  datatype Option<+T> = None | Some(value: T) {

    /** The wrapped value, or `default` when there is none. */
    function GetOr(default: T): T {
      match this
      case Some(v) => v
      case None => default
    }
  }

  /** Either a value or an error. */
  datatype Result<+R, +E> = Success(value: R) | Failure(error: E)
}
